=== FILE: README.md ===
# Storefront interaction state, modelled in Dafny

The storefront is a single-page React site. Under its layout sit a handful of small
state machines. This project models them and proves their properties:

- the hero carousel controller (`useCarousel`): slide index, transition lock, pause flag
  and autoplay interval;
- the visibility trigger (`useInView`) and its delayed variant (`useInViewAnimation`);
- vertical scroll tracking (`useScrollPosition`) and the navbar's scrolled flag (`useScrolled`);
- the "New Arrivals" horizontal rail: progress, boundary flags, bar width and scroll step;
- the newsletter form's submit machine;
- the hero section's view derivations (active slide, dot navigation, "01 / 03" counter,
  disabled controls) and its event wiring;
- the navbar's dropdown and mobile-menu state.

Each stateful hook or component is a class whose fields are the component's state. Its
methods are the event handlers. Every browser callback is an explicit method: a timer
firing, a scroll event, an intersection entry. The methods of the carousel, the visibility
triggers' entry and timer handlers, the rail and the newsletter form are proved against a
pure step function on a datatype (`State() == Step(old(State()), …)`). The properties are
lemmas about those functions, several of them over whole event sequences. The navbar's
methods, the scroll trackers and the visibility triggers' teardown state their new fields
one by one.

Files: `util.dfy` (optional values, JavaScript's `%`, counting), `carousel.dfy`,
`in_view.dfy`, `scroll_position.dfy`, `new_arrivals.dfy`, `newsletter.dfy`, `hero.dfy`,
`navbar.dfy`.

Three behaviours of the code are easy to misread; the model follows the code:

- `goToSlide` does no range check, so an out-of-range index is not ignored. The model
  keeps `currentSlide` an `int`. It proves the index stays in range when every index
  passed in is in range.
- The rail's progress is not clamped. It lies in [0, 1] only for offsets a browser
  reports (`WellFormed`).
- The 800 ms lock-release timer is never cancelled.

## Model

| member | source | states |
|---|---|---|
| Util.JsRemainder | polish-clothing-website/src/hooks/useCarousel.ts:36 | JavaScript's `%` takes the dividend's sign and is smaller in magnitude than the divisor; on non-negative operands it agrees with the mathematical remainder |
| Util.JsRemainderDecomposes | polish-clothing-website/src/hooks/useCarousel.ts:32 | for every sign of dividend and divisor, `a == q * b + a % b` for some integer quotient `q` |
| Util.JsRemainderUnique | polish-clothing-website/src/hooks/useCarousel.ts:36 | any remainder with the dividend's sign and a magnitude below the divisor's that completes such a decomposition is JavaScript's `a % b`, so the value is fixed for negative indices too |
| Util.JsRemainderNegativeDividend | polish-clothing-website/src/hooks/useCarousel.ts:36 | `-4 % 3` is `-1` in JavaScript, where the Euclidean remainder is `2` |
| Carousel.GoTo | polish-clothing-website/src/hooks/useCarousel.ts:20-29 | `goToSlide` leaves the state unchanged exactly when the lock is held or the index is already current; otherwise the new slide and the lock come together, and `isPaused` is untouched |
| Carousel.NextTarget | polish-clothing-website/src/hooks/useCarousel.ts:32 | the next index is in `[0, totalSlides)` and is `current + 1`, wrapping from the last slide to 0 |
| Carousel.PrevTarget | polish-clothing-website/src/hooks/useCarousel.ts:36 | the previous index is in `[0, totalSlides)` and is `current - 1`, wrapping from 0 to the last slide |
| Carousel.Next | polish-clothing-website/src/hooks/useCarousel.ts:31-33 | `nextSlide` is ignored while locked, keeps the index in range, and with a single slide never engages the lock |
| Carousel.Prev | polish-clothing-website/src/hooks/useCarousel.ts:35-37 | `prevSlide` is ignored while locked, keeps the index in range, and with a single slide never engages the lock |
| Carousel.Release | polish-clothing-website/src/hooks/useCarousel.ts:26-28 | the transition timer only clears the lock |
| Carousel.Paused | polish-clothing-website/src/hooks/useCarousel.ts:39-41 | `pause` sets `isPaused` and changes neither the slide nor the lock |
| Carousel.Resumed | polish-clothing-website/src/hooks/useCarousel.ts:43-45 | `resume` clears `isPaused` and changes neither the slide nor the lock |
| Carousel.AutoPlayActive | polish-clothing-website/src/hooks/useCarousel.ts:48-49 | the autoplay effect installs an interval exactly when autoplay is on and the carousel is not paused; the controller's invariant ties its interval handle to this |
| Carousel.Tick | polish-clothing-website/src/hooks/useCarousel.ts:47-59 | an autoplay tick changes nothing unless autoplay is on and not paused, and then it is exactly `nextSlide`; it keeps the index in range |
| Carousel.CycleAdvances | polish-clothing-website/src/hooks/useCarousel.ts:20-33 | with the lock released between calls, `n` calls of `nextSlide` move the index to `(start + n) mod totalSlides` |
| Carousel.CycleReturnsToStart | polish-clothing-website/src/hooks/useCarousel.ts:31-33 | `totalSlides` calls of `nextSlide` return to the starting state |
| Carousel.PrevUndoesNext | polish-clothing-website/src/hooks/useCarousel.ts:31-37 | once the lock is released, `prevSlide` undoes `nextSlide` and the other way round |
| Carousel.ThreeSlideScenario | polish-clothing-website/src/hooks/useCarousel.ts:31-59 | three slides from slide 0: one autoplay tick shows slide 1, and `prevSlide` after the lock release shows slide 0 |
| Carousel.CarouselController.constructor | polish-clothing-website/src/hooks/useCarousel.ts:10-18 | `autoPlay` defaults to true and `autoPlayInterval` to 6000 when left out; the controller starts at slide 0, unlocked and unpaused, and the autoplay interval is installed iff autoplay is on |
| Carousel.CarouselController.GoToSlide | polish-clothing-website/src/hooks/useCarousel.ts:20-29 | the new state is `GoTo` of the old one; the autoplay handle is untouched; an in-range index keeps the index in range |
| Carousel.CarouselController.NextSlide | polish-clothing-website/src/hooks/useCarousel.ts:31-33 | the new state is `Next` of the old one and the index stays in range |
| Carousel.CarouselController.PrevSlide | polish-clothing-website/src/hooks/useCarousel.ts:35-37 | the new state is `Prev` of the old one and the index stays in range |
| Carousel.CarouselController.ReleaseLock | polish-clothing-website/src/hooks/useCarousel.ts:26-28 | the 800 ms timer clears the lock and nothing else |
| Carousel.CarouselController.Pause | polish-clothing-website/src/hooks/useCarousel.ts:39-55 | `pause` changes only `isPaused`, and the autoplay effect then drops the interval |
| Carousel.CarouselController.Resume | polish-clothing-website/src/hooks/useCarousel.ts:43-59 | `resume` changes only `isPaused`, and the autoplay effect then installs the interval iff autoplay is on |
| Carousel.CarouselController.AutoPlayTick | polish-clothing-website/src/hooks/useCarousel.ts:57-59 | the interval fires iff autoplay is on and not paused, and a firing calls `nextSlide` |
| InView.ResolveOptions | polish-clothing-website/src/hooks/useInView.ts:12 | each given option is kept; a missing `threshold`, `rootMargin` or `triggerOnce` becomes 0.2, "0px" or true |
| InView.ResolveOptionsDefaults | polish-clothing-website/src/hooks/useInView.ts:12 | fully given options are used as they are, and an empty options object means threshold 0.2, margin "0px", trigger once |
| InView.ResolveDelay | polish-clothing-website/src/hooks/useInView.ts:44 | a given `animationDelay` is kept, a missing one is 0 |
| InView.OnEntry | polish-clothing-website/src/hooks/useInView.ts:21-29 | a disconnected observer changes nothing; otherwise the flag becomes true on an intersecting entry and, without `triggerOnce`, false on a non-intersecting one; `triggerOnce` disconnects on the first intersection |
| InView.NoElementNeverInView | polish-clothing-website/src/hooks/useInView.ts:14-18 | with no element bound, no entry changes anything and the flag stays false |
| InView.TriggerOnceMonotone | polish-clothing-website/src/hooks/useInView.ts:22-29 | under `triggerOnce`, once the flag is true it stays true whatever entries arrive |
| InView.TriggerOnceLatches | polish-clothing-website/src/hooks/useInView.ts:22-26 | under `triggerOnce`, the flag is true iff some entry intersected, and the observer is disconnected iff so; non-intersecting entries before that leave it false |
| InView.TracksLatestEntry | polish-clothing-website/src/hooks/useInView.ts:27-29 | without `triggerOnce`, the flag equals the latest entry's `isIntersecting` and observation continues |
| InView.VisibilityTrigger.constructor | polish-clothing-website/src/hooks/useInView.ts:12-18 | the options in effect are the given ones with defaults filled in; the flag starts false and an observer is connected iff an element is bound |
| InView.VisibilityTrigger.HandleEntry | polish-clothing-website/src/hooks/useInView.ts:21-29 | the observer callback moves the state as `OnEntry`, keeping "triggered once implies disconnected" |
| InView.VisibilityTrigger.Disconnect | polish-clothing-website/src/hooks/useInView.ts:35 | the effect cleanup disconnects the observer and keeps the flag |
| InView.InViewChanged | polish-clothing-website/src/hooks/useInView.ts:48-55 | the delay effect runs only when `isInView` changes; it cancels the pending timer and starts a new one iff the flag is now true; it never touches `delayedInView` |
| InView.DelayElapsed | polish-clothing-website/src/hooks/useInView.ts:50-52 | the delay timer can only switch `delayedInView` on, and only if it was pending |
| InView.DelayedNeverResets | polish-clothing-website/src/hooks/useInView.ts:46-55 | over any sequence of events, `delayedInView` is never reset to false |
| InView.DelayedOnlyAfterTimer | polish-clothing-website/src/hooks/useInView.ts:48-55 | `delayedInView` switches on only when a pending timer fires while `isInView` is true |
| InView.PendingDelayCancelled | polish-clothing-website/src/hooks/useInView.ts:53 | if `isInView` drops before the pending timer fires, that firing changes nothing |
| InView.AnimatedVisibilityTrigger.constructor | polish-clothing-website/src/hooks/useInView.ts:44-46 | the `animationDelay` handed back is the configured one, or 0 when left out; the remaining options go to the inner trigger; the delayed flag starts false |
| InView.AnimatedVisibilityTrigger.HandleEntry | polish-clothing-website/src/hooks/useInView.ts:48-55 | an entry updates the underlying trigger, then the delay effect reacts to the new `isInView` |
| InView.AnimatedVisibilityTrigger.DelayTimerFires | polish-clothing-website/src/hooks/useInView.ts:50-52 | the delay timer firing moves the state as `DelayElapsed` |
| InView.AnimatedVisibilityTrigger.Unmount | polish-clothing-website/src/hooks/useInView.ts:53 | unmounting disconnects the observer and clears the pending timer, keeping both flags |
| ScrollPosition.DirectionOf | polish-clothing-website/src/hooks/useScrollPosition.ts:19-24 | the direction is none, down or up exactly when the new offset is equal to, greater than or less than the last one |
| ScrollPosition.TrackComparesLastTwo | polish-clothing-website/src/hooks/useScrollPosition.ts:17-27 | after any readings, the reported position is the latest one with the direction from the previous reading (0 before the first); two readings at the same height report no direction |
| ScrollPosition.ScrollTracker.constructor | polish-clothing-website/src/hooks/useScrollPosition.ts:10-15 | the position starts at (0, 0) with no direction, and `lastScrollY` at 0 |
| ScrollPosition.ScrollTracker.HandleScroll | polish-clothing-website/src/hooks/useScrollPosition.ts:17-27 | a scroll event reports the new offsets with their direction and sets `lastScrollY` to the new `y`, keeping `lastScrollY == y` |
| ScrollPosition.IsScrolled | polish-clothing-website/src/hooks/useScrollPosition.ts:42 | the flag is strict: false at or below the threshold, true above it |
| ScrollPosition.IsScrolledMonotone | polish-clothing-website/src/hooks/useScrollPosition.ts:41-43 | the flag depends only on the current offset and is monotone in it, so it has no hysteresis |
| ScrollPosition.ScrolledFlag.constructor | polish-clothing-website/src/hooks/useScrollPosition.ts:37-38 | the threshold is the given one, or 50 when left out, and the flag starts false |
| ScrollPosition.ScrolledFlag.HandleScroll | polish-clothing-website/src/hooks/useScrollPosition.ts:41-46 | each scroll event, and the call at mount, sets the flag from the current offset |
| NewArrivals.Derive | polish-clothing-website/src/sections/NewArrivals.tsx:33-43 | progress is 0 with nothing to scroll and otherwise exactly `scrollLeft / maxScroll`; it lies in [0, 1] for browser offsets, and is 0 or 1 exactly at the ends; each flag means "more than 10 px from that edge"; a rail that overflows by more than 20 px always enables at least one arrow |
| NewArrivals.ProgressMonotone | polish-clothing-website/src/sections/NewArrivals.tsx:38 | scrolling further right never lowers the progress |
| NewArrivals.RailExample | polish-clothing-website/src/sections/NewArrivals.tsx:37-42 | a 1000 px rail in a 400 px window gives (left off, right on) at offset 0, progress 0.5 with both arrows on and a 65% bar at offset 300, and right off at offset 600 |
| NewArrivals.BarWidth | polish-clothing-website/src/sections/NewArrivals.tsx:111 | the bar width is always in [15, 100] percent, follows `progress * 100 + 15` between the bounds, and saturates at 100 from progress 0.85 |
| NewArrivals.BarWidthMonotone | polish-clothing-website/src/sections/NewArrivals.tsx:111 | the bar never shrinks as progress grows |
| NewArrivals.ScrollRequest | polish-clothing-website/src/sections/NewArrivals.tsx:55-63 | a scroll request exists iff the container is mounted; it is 320 px, negative exactly for the left arrow |
| NewArrivals.ArrowDisabled | polish-clothing-website/src/sections/NewArrivals.tsx:120-134 | each arrow is disabled iff its flag is false |
| NewArrivals.InitialView | polish-clothing-website/src/sections/NewArrivals.tsx:29-31 | before measuring, the left arrow is disabled, the right one enabled, and the bar is at 15% |
| NewArrivals.RailController.constructor | polish-clothing-website/src/sections/NewArrivals.tsx:29-31 | the rail starts at progress 0, left off, right on |
| NewArrivals.RailController.UpdateScrollState | polish-clothing-website/src/sections/NewArrivals.tsx:33-43 | with no container nothing changes; otherwise the state becomes `Derive` of the measurement |
| Newsletter.FormShown | polish-clothing-website/src/sections/Newsletter.tsx:68 | the input and button are shown unless the thank-you message replaces them; in a consistent form they are hidden exactly while the reset is pending, with the email empty |
| Newsletter.InputDisabled | polish-clothing-website/src/sections/Newsletter.tsx:85 | the input is disabled while loading, which in a consistent form is exactly while the request is in flight; a disabled input is still shown |
| Newsletter.SubmitDisabled | polish-clothing-website/src/sections/Newsletter.tsx:100 | the button is disabled whenever the input is or the email is empty, and so whenever the form is hidden; an enabled button means a non-empty email, not loading |
| Newsletter.EditEmail | polish-clothing-website/src/sections/Newsletter.tsx:68-85 | typing changes the email only while the input is shown and enabled (not loading, not in success) |
| Newsletter.Submit | polish-clothing-website/src/sections/Newsletter.tsx:13-17 | a submit is ignored exactly when the submit button is disabled (empty email or loading); otherwise it goes to loading with the request in flight and the email untouched |
| Newsletter.RequestResolved | polish-clothing-website/src/sections/Newsletter.tsx:20-23 | the request resolving sets success, clears the email and schedules the reset |
| Newsletter.ResetElapsed | polish-clothing-website/src/sections/Newsletter.tsx:25-27 | the reset timer returns the status to idle |
| Newsletter.AlwaysConsistent | polish-clothing-website/src/sections/Newsletter.tsx:10-27 | over any sequence of events, `error` is never reached, loading and success each match their outstanding timer, and the email is empty in success |
| Newsletter.SubmitLifecycle | polish-clothing-website/src/sections/Newsletter.tsx:15-27 | a non-empty email submitted from idle goes loading, then success with the email cleared, then idle |
| Newsletter.SubmitDuringSuccessIgnored | polish-clothing-website/src/sections/Newsletter.tsx:15-23 | in success the email is empty, so a further submit is a no-op, and the form is replaced by the thank-you message |
| Newsletter.NewsletterForm.constructor | polish-clothing-website/src/sections/Newsletter.tsx:9-10 | the form starts idle with an empty email |
| Newsletter.NewsletterForm.Type | polish-clothing-website/src/sections/Newsletter.tsx:80-85 | the input's change handler moves the state as `EditEmail` |
| Newsletter.NewsletterForm.HandleSubmit | polish-clothing-website/src/sections/Newsletter.tsx:13-17 | `handleSubmit` moves the state as `Submit` and reports whether it started, which is exactly when the button is enabled |
| Newsletter.NewsletterForm.RequestCompletes | polish-clothing-website/src/sections/Newsletter.tsx:20-23 | the simulated request completing moves the state as `RequestResolved` |
| Newsletter.NewsletterForm.ResetTimerFires | polish-clothing-website/src/sections/Newsletter.tsx:25-27 | the 3000 ms timer moves the state as `ResetElapsed` |
| Hero.DecimalString | polish-clothing-website/src/sections/Hero.tsx:271 | `String(n)` is a non-empty string of digits without a leading zero, one digit exactly below 10 |
| Hero.ParseDecimalString | polish-clothing-website/src/sections/Hero.tsx:271 | the rendered number reads back as itself |
| Hero.PadStart | polish-clothing-website/src/sections/Hero.tsx:271 | `padStart` gives length `max(|s|, width)`, ends with `s` and is filled in front with the fill character |
| Hero.CounterText | polish-clothing-website/src/sections/Hero.tsx:271 | a counter cell is at least two digits and reads back as the number |
| Hero.CounterTextShape | polish-clothing-website/src/sections/Hero.tsx:271 | one-digit numbers get a leading '0'; larger ones are unchanged |
| Hero.CurrentCounter | polish-clothing-website/src/sections/Hero.tsx:271 | the left cell reads back as the 1-based current slide |
| Hero.TotalCounter | polish-clothing-website/src/sections/Hero.tsx:273 | the right cell is "03", the slide count |
| Hero.CounterExamples | polish-clothing-website/src/sections/Hero.tsx:271-273 | the counter reads "01" on the first slide and "03" on the last |
| Hero.ViewOfSlide | polish-clothing-website/src/sections/Hero.tsx:211-240 | a slide is active iff it is the current one, `aria-hidden` is its negation, its text shows iff loaded and active, and only slide 0's image loads eagerly |
| Hero.SlideViews | polish-clothing-website/src/sections/Hero.tsx:211-240 | one view per slide; slide `i` is active iff it is the current one, and no slide shows its text before the section has loaded |
| Hero.ExactlyOneActiveSlide | polish-clothing-website/src/sections/Hero.tsx:211-212 | with an in-range index exactly one slide is active |
| Hero.ViewOfDot | polish-clothing-website/src/sections/Hero.tsx:170-183 | a dot's `aria-current` is "true" iff it is the current slide, and it is disabled as the whole navigation is |
| Hero.DotLabel | polish-clothing-website/src/sections/Hero.tsx:181 | dot `i` is labelled "Go to slide " followed by the unpadded decimal form of `i + 1` (no leading zero, unlike the counter), which reads back as `i + 1` |
| Hero.Dots | polish-clothing-website/src/sections/Hero.tsx:170-183 | one dot per slide; dot `i` has `aria-current` "true" iff it is the current slide, all share the navigation's `disabled`, each carries its own label |
| Hero.ExactlyOneCurrentDot | polish-clothing-website/src/sections/Hero.tsx:177-182 | with an in-range index exactly one dot has `aria-current` "true" |
| Hero.ControlsDisabled | polish-clothing-website/src/sections/Hero.tsx:246-254 | the arrows and dots are disabled exactly when no dot click could change the carousel |
| Hero.DisabledControlsAreInert | polish-clothing-website/src/sections/Hero.tsx:246-254 | the arrows and dots are disabled exactly while the lock is held, and then the navigation they would trigger is ignored anyway |
| Hero.HeroStep | polish-clothing-website/src/sections/Hero.tsx:204-255 | mouse enter pauses and mouse leave resumes, moving neither the slide nor the lock; the arrows call `prevSlide`/`nextSlide`, a dot calls `goToSlide` with its index (an in-range one keeps the index in range), the interval is an autoplay tick and the transition timer releases the lock |
| Hero.MountHero | polish-clothing-website/src/sections/Hero.tsx:191-195 | the hero's carousel has the three slides, autoplay on, every 6000 ms, starting at slide 0 |
| Hero.HandleEvent | polish-clothing-website/src/sections/Hero.tsx:204-255 | each hero event drives the carousel as `HeroStep` says |
| Navbar.DropdownOpen | polish-clothing-website/src/sections/Navbar.tsx:189 | a dropdown is open iff its item has one and is the active name |
| Navbar.NavItemNamesDistinct | polish-clothing-website/src/sections/Navbar.tsx:13-35 | the six bar items have distinct names |
| Navbar.AtMostOneDropdownOpen | polish-clothing-website/src/sections/Navbar.tsx:116 | because the active dropdown is a single optional name, at most one dropdown is open among distinctly named items |
| Navbar.OpenDropdownCount | polish-clothing-website/src/sections/Navbar.tsx:161-190 | in the bar, exactly one dropdown is open when a dropdown item is active and none when nothing is |
| Navbar.MenuButtonLabel | polish-clothing-website/src/sections/Navbar.tsx:225 | the menu button reads "Close menu" iff the mobile menu is open, "Open menu" otherwise |
| Navbar.NavbarState.constructor | polish-clothing-website/src/sections/Navbar.tsx:115-117 | no dropdown is active, the mobile menu is closed, and the scrolled flag starts false with threshold 50, the hook's default |
| Navbar.NavbarState.HandleWindowScroll | polish-clothing-website/src/sections/Navbar.tsx:115 | a window scroll sets the scrolled flag from the offset and leaves the dropdown and menu alone |
| Navbar.NavbarState.HandleMouseEnter | polish-clothing-website/src/sections/Navbar.tsx:165 | entering an item with a dropdown makes it the active one; entering any other item changes nothing |
| Navbar.NavbarState.HandleMouseLeave | polish-clothing-website/src/sections/Navbar.tsx:123-125 | leaving any item clears the active dropdown |
| Navbar.NavbarState.ToggleMobileMenu | polish-clothing-website/src/sections/Navbar.tsx:127-129 | the toggle negates the mobile menu flag, so two toggles restore it |
| Navbar.NavbarState.CloseMobileMenu | polish-clothing-website/src/sections/Navbar.tsx:131-133 | closing sets the flag to false and is idempotent; the backdrop and every mobile link call it |

## Left out

- Wall-clock time. Each timer is a discrete event: the 800 ms lock, the 6000 ms
  autoplay interval, the 1500 ms simulated request, the 3000 ms success display and the
  `animationDelay`. The autoplay interval restarts
  whenever its effect re-runs, so the model makes no claim about when ticks fall.
  Pause and resume do not preserve the tick schedule.
- Carousel teardown. Unmounting clears the interval; it is not modelled. Nor is the
  pending lock-release timer, which the source never cancels.
- A carousel with zero slides. The constructor requires at least one slide; the source
  would compute `NaN` indices.
- React rendering semantics: re-renders, stale closures between events, hook dependency
  arrays. Each event is assumed to see the state left by the previous one.
- Intersection geometry. `threshold` and `rootMargin` are kept as configuration only.
  Each observer callback is modelled as one entry; the source reads only the first
  entry of a batch.
- The effect of `scrollBy` on the rail's offset. Smooth scrolling is performed by the
  browser; the model gives only the requested offset.
- The hero's 100 ms load timer. `isLoaded` is a parameter of the slide views; no event
  sets it.
- Floating point. The rail's progress and the bar width are exact reals; the browser
  computes them as IEEE doubles, whose rounding is not modelled.
- The `pauseOnHover` option of the carousel hook, which the hook declares but never reads.
- Non-integer scroll offsets. `scrollX`, `scrollY` and `scrollLeft` are integers here.
- The browser's own email validation (`type="email"`, `required`). Any non-empty string
  passes the handler's guard.
- The focus flag of the newsletter input, CSS classes, transitions and stagger delays,
  the chevron rotation and icon rendering: presentation only.
- The static sections (collections, brand story, featured products, services, footer),
  the animated element wrapper and the product card: layout and fixed content.
- The network: no request is sent; the simulated one is a completion event.

=== FILE: carousel.dfy ===
/** The hero carousel controller (`useCarousel`): a slide index, a transition lock that
    is held for one fixed transition window after each navigation, and a pause flag that
    switches the autoplay interval off and on. Timer callbacks (the lock release after
    800 ms and each autoplay tick) are explicit events. */
module Carousel {
  import opened Util

  /** The hook's defaults for its optional `autoPlay` and `autoPlayInterval` (milliseconds). */
  const DefaultAutoPlay := true
  const DefaultAutoPlayInterval := 6000

  datatype CarouselState = CarouselState(currentSlide: int, isAnimating: bool, isPaused: bool)

  function InitialState(): CarouselState { CarouselState(0, false, false) }

  predicate InRange(s: CarouselState, totalSlides: int)
  {
    0 <= s.currentSlide < totalSlides
  }

  /** `goToSlide(index)`: ignored while the lock is held or when `index` is already the
      current slide; otherwise the slide changes and the lock engages in the same step. */
  function GoTo(s: CarouselState, index: int): (r: CarouselState)
    ensures r.isPaused == s.isPaused
    ensures r == s <==> s.isAnimating || index == s.currentSlide
    ensures r != s ==> r.currentSlide == index && r.isAnimating
  {
    if s.isAnimating || index == s.currentSlide then s
    else s.(isAnimating := true, currentSlide := index)
  }

  /** The index `nextSlide` asks for: `(currentSlide + 1) % totalSlides`. */
  function NextTarget(current: int, totalSlides: int): (r: int)
    requires totalSlides >= 1
    ensures current + 1 >= 0 ==> 0 <= r < totalSlides
    ensures 0 <= current < totalSlides ==> r == (if current == totalSlides - 1 then 0 else current + 1)
  {
    JsRemainder(current + 1, totalSlides)
  }

  /** The index `prevSlide` asks for: `(currentSlide - 1 + totalSlides) % totalSlides`. */
  function PrevTarget(current: int, totalSlides: int): (r: int)
    requires totalSlides >= 1
    ensures current - 1 + totalSlides >= 0 ==> 0 <= r < totalSlides
    ensures 0 <= current < totalSlides ==> r == (if current == 0 then totalSlides - 1 else current - 1)
  {
    PrevTargetInRange(current, totalSlides);
    JsRemainder(current - 1 + totalSlides, totalSlides)
  }

  lemma PrevTargetInRange(current: int, totalSlides: int)
    requires totalSlides >= 1
    ensures 0 < current < totalSlides ==> (current - 1 + totalSlides) % totalSlides == current - 1
    ensures current == 0 ==> (current - 1 + totalSlides) % totalSlides == totalSlides - 1
  {
    if 0 < current < totalSlides {
      ModUnique(current - 1 + totalSlides, totalSlides, 1, current - 1);
    } else if current == 0 {
      ModUnique(totalSlides - 1, totalSlides, 0, totalSlides - 1);
    }
  }

  function Next(s: CarouselState, totalSlides: int): (r: CarouselState)
    requires totalSlides >= 1
    ensures s.isAnimating ==> r == s
    ensures totalSlides == 1 && InRange(s, totalSlides) ==> r == s
    ensures InRange(s, totalSlides) ==> InRange(r, totalSlides)
    ensures r.isPaused == s.isPaused
  {
    GoTo(s, NextTarget(s.currentSlide, totalSlides))
  }

  function Prev(s: CarouselState, totalSlides: int): (r: CarouselState)
    requires totalSlides >= 1
    ensures s.isAnimating ==> r == s
    ensures totalSlides == 1 && InRange(s, totalSlides) ==> r == s
    ensures InRange(s, totalSlides) ==> InRange(r, totalSlides)
    ensures r.isPaused == s.isPaused
  {
    GoTo(s, PrevTarget(s.currentSlide, totalSlides))
  }

  /** The transition timer firing: the lock is released, nothing else changes. */
  function Release(s: CarouselState): (r: CarouselState)
    ensures !r.isAnimating && r.currentSlide == s.currentSlide && r.isPaused == s.isPaused
  {
    s.(isAnimating := false)
  }

  function Paused(s: CarouselState): (r: CarouselState)
    ensures r.isPaused && r.currentSlide == s.currentSlide && r.isAnimating == s.isAnimating
  {
    s.(isPaused := true)
  }

  function Resumed(s: CarouselState): (r: CarouselState)
    ensures !r.isPaused && r.currentSlide == s.currentSlide && r.isAnimating == s.isAnimating
  {
    s.(isPaused := false)
  }

  /** An autoplay interval is installed exactly when autoplay is enabled and not paused. */
  predicate AutoPlayActive(autoPlay: bool, isPaused: bool)
  {
    autoPlay && !isPaused
  }

  /** One autoplay tick: `nextSlide` if an interval is installed; no timer, no tick. */
  function Tick(s: CarouselState, totalSlides: int, autoPlay: bool): (r: CarouselState)
    requires totalSlides >= 1
    ensures !AutoPlayActive(autoPlay, s.isPaused) ==> r == s
    ensures AutoPlayActive(autoPlay, s.isPaused) ==> r == Next(s, totalSlides)
    ensures InRange(s, totalSlides) ==> InRange(r, totalSlides)
    ensures r.isPaused == s.isPaused
  {
    if AutoPlayActive(autoPlay, s.isPaused) then Next(s, totalSlides) else s
  }

  /** `n` rounds of "advance, then let the transition finish". */
  function Cycle(s: CarouselState, totalSlides: int, n: nat): CarouselState
    requires totalSlides >= 1
  {
    if n == 0 then s else Release(Next(Cycle(s, totalSlides, n - 1), totalSlides))
  }

  lemma ModSuccessor(a: int, m: int)
    requires a >= 0 && m >= 1
    ensures (a + 1) % m == if a % m == m - 1 then 0 else a % m + 1
  {
    var q := a / m;
    assert a == q * m + a % m;
    if a % m == m - 1 {
      ModUnique(a + 1, m, q + 1, 0);
    } else {
      ModUnique(a + 1, m, q, a % m + 1);
    }
  }

  /** With the lock released between calls, `n` calls of `nextSlide` move the index
      forward by `n` modulo the slide count. */
  lemma {:induction false} CycleAdvances(s: CarouselState, totalSlides: int, n: nat)
    requires totalSlides >= 1 && InRange(s, totalSlides) && !s.isAnimating
    ensures Cycle(s, totalSlides, n) == s.(currentSlide := (s.currentSlide + n) % totalSlides)
  {
    if n > 0 {
      CycleAdvances(s, totalSlides, n - 1);
      ModSuccessor(s.currentSlide + n - 1, totalSlides);
    }
  }

  /** `totalSlides` calls of `nextSlide` bring the carousel back to where it started. */
  lemma CycleReturnsToStart(s: CarouselState, totalSlides: int)
    requires totalSlides >= 1 && InRange(s, totalSlides) && !s.isAnimating
    ensures Cycle(s, totalSlides, totalSlides) == s
  {
    CycleAdvances(s, totalSlides, totalSlides);
    ModUnique(s.currentSlide + totalSlides, totalSlides, 1, s.currentSlide);
  }

  /** `prevSlide` undoes `nextSlide` (and the other way round) once the lock is released. */
  lemma PrevUndoesNext(s: CarouselState, totalSlides: int)
    requires totalSlides >= 1 && InRange(s, totalSlides) && !s.isAnimating
    ensures Release(Prev(Release(Next(s, totalSlides)), totalSlides)) == s
    ensures Release(Next(Release(Prev(s, totalSlides)), totalSlides)) == s
  {
  }

  /** Three slides, autoplay on, starting at slide 0: one tick shows slide 1; once the
      lock is released, `prevSlide` shows slide 0 again. */
  lemma ThreeSlideScenario()
    ensures Tick(InitialState(), 3, true).currentSlide == 1
    ensures Prev(Release(Tick(InitialState(), 3, true)), 3).currentSlide == 0
  {
  }

  /** The controller as the hook keeps it. `autoPlayTimerSet` stands for a non-null
      `autoPlayRef.current`. */
  class CarouselController {
    const totalSlides: int
    const autoPlay: bool
    const autoPlayInterval: int
    var currentSlide: int
    var isAnimating: bool
    var isPaused: bool
    var autoPlayTimerSet: bool

    ghost predicate Valid()
      reads this
    {
      totalSlides >= 1 && autoPlayTimerSet == AutoPlayActive(autoPlay, isPaused)
    }

    function State(): CarouselState
      reads this
    {
      CarouselState(currentSlide, isAnimating, isPaused)
    }

    predicate IndexInRange()
      reads this
    {
      InRange(State(), totalSlides)
    }

    /** Mounting: initial state, then the autoplay effect runs once. An option left out
        (`None`) takes the hook's default. */
    constructor (totalSlides: int, autoPlay: Option<bool>, autoPlayInterval: Option<int>)
      requires totalSlides >= 1
      ensures Valid() && IndexInRange()
      ensures this.totalSlides == totalSlides
      ensures this.autoPlay == (if autoPlay.Some? then autoPlay.value else DefaultAutoPlay)
      ensures this.autoPlayInterval ==
                (if autoPlayInterval.Some? then autoPlayInterval.value else DefaultAutoPlayInterval)
      ensures State() == InitialState()
      ensures autoPlayTimerSet == this.autoPlay
    {
      this.totalSlides := totalSlides;
      this.autoPlay := if autoPlay.Some? then autoPlay.value else DefaultAutoPlay;
      this.autoPlayInterval :=
        if autoPlayInterval.Some? then autoPlayInterval.value else DefaultAutoPlayInterval;
      currentSlide := 0;
      isAnimating := false;
      isPaused := false;
      autoPlayTimerSet := this.autoPlay;
    }

    method GoToSlide(index: int)
      requires Valid()
      modifies this
      ensures Valid()
      ensures State() == GoTo(old(State()), index)
      ensures autoPlayTimerSet == old(autoPlayTimerSet)
      ensures old(IndexInRange()) && 0 <= index < totalSlides ==> IndexInRange()
    {
      if isAnimating || index == currentSlide {
        return;
      }
      isAnimating := true;
      currentSlide := index;
    }

    method NextSlide()
      requires Valid()
      modifies this
      ensures Valid()
      ensures State() == Next(old(State()), totalSlides)
      ensures autoPlayTimerSet == old(autoPlayTimerSet)
      ensures old(IndexInRange()) ==> IndexInRange()
    {
      GoToSlide(JsRemainder(currentSlide + 1, totalSlides));
    }

    method PrevSlide()
      requires Valid()
      modifies this
      ensures Valid()
      ensures State() == Prev(old(State()), totalSlides)
      ensures autoPlayTimerSet == old(autoPlayTimerSet)
      ensures old(IndexInRange()) ==> IndexInRange()
    {
      GoToSlide(JsRemainder(currentSlide - 1 + totalSlides, totalSlides));
    }

    /** The transition timer set by `goToSlide` fires. */
    method ReleaseLock()
      requires Valid()
      modifies this
      ensures Valid()
      ensures State() == Release(old(State()))
      ensures autoPlayTimerSet == old(autoPlayTimerSet)
    {
      isAnimating := false;
    }

    /** `pause`, followed by the autoplay effect re-running on the new `isPaused`. */
    method Pause()
      requires Valid()
      modifies this
      ensures Valid()
      ensures State() == Paused(old(State()))
      ensures !autoPlayTimerSet
    {
      isPaused := true;
      autoPlayTimerSet := autoPlay && !isPaused;
    }

    /** `resume`, followed by the autoplay effect re-running on the new `isPaused`. */
    method Resume()
      requires Valid()
      modifies this
      ensures Valid()
      ensures State() == Resumed(old(State()))
      ensures autoPlayTimerSet == autoPlay
    {
      isPaused := false;
      autoPlayTimerSet := autoPlay && !isPaused;
    }

    /** The autoplay interval elapses; with no interval installed nothing fires. */
    method AutoPlayTick() returns (fired: bool)
      requires Valid()
      modifies this
      ensures Valid()
      ensures fired == AutoPlayActive(autoPlay, old(isPaused))
      ensures State() == Tick(old(State()), totalSlides, autoPlay)
      ensures old(IndexInRange()) ==> IndexInRange()
    {
      fired := autoPlayTimerSet;
      if fired {
        NextSlide();
      }
    }
  }
}

=== FILE: hero.dfy ===
/** The hero section: what it renders from the carousel state (which slide is active,
    the dot navigation, the "01 / 03" counter, which controls are disabled) and how its
    mouse and click events drive the carousel controller. */
module Hero {
  import opened Util
  import Carousel

  datatype Slide = Slide(id: nat, tag: string, image: string)

  const Slides: seq<Slide> := [
    Slide(1, "NEW ARRIVAL", "/hero-1.jpg"),
    Slide(2, "BESTSELLER", "/hero-2.jpg"),
    Slide(3, "ECO-FRIENDLY", "/hero-3.jpg")
  ]

  const HeroAutoPlayInterval := 6000

  // ----- Decimal rendering: JavaScript's String(n) for a natural number, and padStart.

  predicate IsDigit(c: char) { '0' <= c <= '9' }

  predicate AllDigits(s: string) { forall i :: 0 <= i < |s| ==> IsDigit(s[i]) }

  function DigitChar(d: nat): (c: char)
    requires d < 10
    ensures IsDigit(c)
  {
    ['0', '1', '2', '3', '4', '5', '6', '7', '8', '9'][d]
  }

  function DigitValue(c: char): (d: nat)
    requires IsDigit(c)
    ensures d < 10 && DigitChar(d) == c
  {
    if c == '0' then 0 else if c == '1' then 1 else if c == '2' then 2
    else if c == '3' then 3 else if c == '4' then 4 else if c == '5' then 5
    else if c == '6' then 6 else if c == '7' then 7 else if c == '8' then 8 else 9
  }

  /** Decimal digits of `n`, most significant first, without leading zeros. */
  function DecimalString(n: nat): (s: string)
    ensures |s| >= 1 && AllDigits(s)
    ensures |s| > 1 ==> s[0] != '0'
    ensures n < 10 <==> |s| == 1
  {
    if n < 10 then [DigitChar(n)] else DecimalString(n / 10) + [DigitChar(n % 10)]
  }

  /** Reads a string of decimal digits back as a number; leading zeros are harmless. */
  function ParseDecimal(s: string): nat
    requires AllDigits(s)
  {
    if s == [] then 0 else ParseDecimal(s[..|s| - 1]) * 10 + DigitValue(s[|s| - 1])
  }

  lemma DigitRoundTrip(d: nat)
    requires d < 10
    ensures DigitValue(DigitChar(d)) == d
  {
  }

  /** The rendered number reads back as itself. */
  lemma {:induction false} ParseDecimalString(n: nat)
    ensures ParseDecimal(DecimalString(n)) == n
  {
    var s := DecimalString(n);
    if n < 10 {
      DigitRoundTrip(n);
      assert s[..0] == [];
    } else {
      ParseDecimalString(n / 10);
      DigitRoundTrip(n % 10);
      assert s[..|s| - 1] == DecimalString(n / 10);
    }
  }

  /** A leading '0' does not change the value read. */
  lemma {:induction false} ParseLeadingZero(s: string)
    requires AllDigits(s)
    ensures ParseDecimal(['0'] + s) == ParseDecimal(s)
  {
    if s != [] {
      var t := ['0'] + s;
      assert t[..|t| - 1] == ['0'] + s[..|s| - 1];
      ParseLeadingZero(s[..|s| - 1]);
    } else {
      assert (['0'] + s)[..0] == [];
    }
  }

  /** JavaScript's `s.padStart(width, fill)` for a one-character fill. */
  function PadStart(s: string, width: nat, fill: char): (r: string)
    ensures |r| == Max(|s|, width)
    ensures r[|r| - |s|..] == s
    ensures forall i :: 0 <= i < |r| - |s| ==> r[i] == fill
  {
    if |s| >= width then s else seq(width - |s|, _ => fill) + s
  }

  /** A counter cell, `String(n).padStart(2, '0')`: at least two digits, reading back
      as `n`. */
  function CounterText(n: nat): (r: string)
    ensures |r| >= 2 && AllDigits(r)
    ensures ParseDecimal(r) == n
  {
    var s := DecimalString(n);
    ParseDecimalString(n);
    if n < 10 then
      ParseLeadingZero(s);
      assert PadStart(s, 2, '0') == ['0'] + s;
      PadStart(s, 2, '0')
    else
      PadStart(s, 2, '0')
  }

  /** One-digit numbers get a leading zero; longer ones are unchanged. */
  lemma CounterTextShape(n: nat)
    ensures n < 10 ==> CounterText(n) == ['0', DigitChar(n)]
    ensures n >= 10 ==> CounterText(n) == DecimalString(n)
  {
  }

  /** The left cell shows the 1-based current slide. */
  function CurrentCounter(currentSlide: nat): (r: string)
    ensures |r| >= 2 && AllDigits(r) && ParseDecimal(r) == currentSlide + 1
  {
    CounterText(currentSlide + 1)
  }

  /** The right cell shows the slide count: "03". */
  function TotalCounter(): (r: string)
    ensures r == "03" && ParseDecimal(r) == |Slides|
  {
    CounterTextShape(3);
    CounterText(|Slides|)
  }

  /** The counter reads "01" on the first slide and "03" on the last. */
  lemma CounterExamples()
    ensures CurrentCounter(0) == "01" && CurrentCounter(|Slides| - 1) == "03"
  {
    CounterTextShape(1);
    CounterTextShape(3);
  }

  // ----- Slides and dots.

  datatype ImageLoading = Eager | Lazy

  datatype SlideView = SlideView(isActive: bool, ariaHidden: bool, contentShown: bool, loading: ImageLoading)

  /** How slide `index` renders: active when it is the current slide, its text shown
      once the section has loaded, and only the first image loaded eagerly. */
  function ViewOfSlide(index: nat, currentSlide: int, isLoaded: bool): (v: SlideView)
    ensures v.isActive <==> index == currentSlide
    ensures v.ariaHidden <==> !v.isActive
    ensures v.contentShown <==> isLoaded && v.isActive
    ensures v.loading == Eager <==> index == 0
  {
    var isActive := index == currentSlide;
    SlideView(isActive, !isActive, isLoaded && isActive, if index == 0 then Eager else Lazy)
  }

  /** The views of all `total` slides: only the current one is active, and none shows
      its text before the section has loaded. */
  function SlideViews(total: nat, currentSlide: int, isLoaded: bool): (r: seq<SlideView>)
    ensures |r| == total
    ensures forall i :: 0 <= i < total ==> (r[i].isActive <==> i == currentSlide)
    ensures !isLoaded ==> forall i :: 0 <= i < total ==> !r[i].contentShown
  {
    seq(total, i requires 0 <= i < total => ViewOfSlide(i, currentSlide, isLoaded))
  }

  function ActiveFlags(views: seq<SlideView>): seq<bool>
  {
    seq(|views|, i requires 0 <= i < |views| => views[i].isActive)
  }

  /** Exactly one slide is active when the index is in range. */
  lemma ExactlyOneActiveSlide(total: nat, currentSlide: int, isLoaded: bool)
    requires 0 <= currentSlide < total
    ensures CountTrue(ActiveFlags(SlideViews(total, currentSlide, isLoaded))) == 1
  {
    var flags := ActiveFlags(SlideViews(total, currentSlide, isLoaded));
    CountExactlyOne(flags, currentSlide);
  }

  datatype DotView = DotView(ariaLabel: string, ariaCurrent: string, disabled: bool)

  /** Dot `index` is labelled "Go to slide " followed by the 1-based slide number. */
  function DotLabel(index: nat): (r: string)
    ensures |r| > 12 && r[..12] == "Go to slide "
    ensures r[12..] == DecimalString(index + 1)
    ensures |r| > 13 ==> r[12] != '0'
    ensures AllDigits(r[12..]) && ParseDecimal(r[12..]) == index + 1
  {
    var text := "Go to slide " + DecimalString(index + 1);
    ParseDecimalString(index + 1);
    assert text[12..] == DecimalString(index + 1);
    text
  }

  function ViewOfDot(index: nat, current: int, disabled: bool): (d: DotView)
    ensures d.ariaCurrent == (if index == current then "true" else "false")
    ensures d.disabled == disabled
  {
    DotView(DotLabel(index), if index == current then "true" else "false", disabled)
  }

  /** One dot per slide: only the current one is marked, all share `disabled`, and
      each is labelled with its own slide. */
  function Dots(total: nat, current: int, disabled: bool): (r: seq<DotView>)
    ensures |r| == total
    ensures forall i :: 0 <= i < total ==> (r[i].ariaCurrent == "true" <==> i == current)
    ensures forall i :: 0 <= i < total ==> r[i].disabled == disabled
    ensures forall i :: 0 <= i < total ==> r[i].ariaLabel == DotLabel(i)
  {
    seq(total, i requires 0 <= i < total => ViewOfDot(i, current, disabled))
  }

  function CurrentFlags(dots: seq<DotView>): seq<bool>
  {
    seq(|dots|, i requires 0 <= i < |dots| => dots[i].ariaCurrent == "true")
  }

  /** Exactly one dot is marked current (`aria-current="true"`). */
  lemma ExactlyOneCurrentDot(total: nat, current: int, disabled: bool)
    requires 0 <= current < total
    ensures CountTrue(CurrentFlags(Dots(total, current, disabled))) == 1
  {
    var flags := CurrentFlags(Dots(total, current, disabled));
    assert "false" != "true";
    CountExactlyOne(flags, current);
  }

  // ----- Controls and events.

  /** Both arrows and every dot are disabled while the transition lock is held, which is
      exactly when no dot click could change anything. */
  function ControlsDisabled(s: Carousel.CarouselState): (r: bool)
    ensures r <==> forall index :: Carousel.GoTo(s, index) == s
  {
    assert !s.isAnimating ==> Carousel.GoTo(s, s.currentSlide + 1) != s;
    s.isAnimating
  }

  /** Disabling the controls loses nothing: while they are disabled, the navigation
      they would trigger is ignored by the controller anyway. */
  lemma DisabledControlsAreInert(s: Carousel.CarouselState, totalSlides: int, index: int)
    requires totalSlides >= 1 && ControlsDisabled(s)
    ensures Carousel.Next(s, totalSlides) == s && Carousel.Prev(s, totalSlides) == s
    ensures Carousel.GoTo(s, index) == s
  {
  }

  datatype HeroEvent =
    | MouseEnter | MouseLeave
    | PrevClicked | NextClicked | DotClicked(index: nat)
    | AutoPlayElapsed | TransitionEnded

  /** The carousel state after one event. A click on a disabled control never fires. */
  function HeroStep(s: Carousel.CarouselState, totalSlides: int, autoPlay: bool, e: HeroEvent): (r: Carousel.CarouselState)
    requires totalSlides >= 1
    ensures e == MouseEnter ==> r.isPaused && r.currentSlide == s.currentSlide
    ensures e == MouseLeave ==> !r.isPaused && r.currentSlide == s.currentSlide
    ensures e == MouseEnter || e == MouseLeave ==> r.isAnimating == s.isAnimating
    ensures e == PrevClicked ==> r == Carousel.Prev(s, totalSlides)
    ensures e == NextClicked ==> r == Carousel.Next(s, totalSlides)
    ensures e.DotClicked? ==> r == Carousel.GoTo(s, e.index)
    ensures e == AutoPlayElapsed ==> r == Carousel.Tick(s, totalSlides, autoPlay)
    ensures e == TransitionEnded ==> r == Carousel.Release(s)
    ensures e.DotClicked? && e.index < totalSlides && Carousel.InRange(s, totalSlides) ==> Carousel.InRange(r, totalSlides)
  {
    match e
    case MouseEnter => Carousel.Paused(s)
    case MouseLeave => Carousel.Resumed(s)
    case PrevClicked => if ControlsDisabled(s) then s else Carousel.Prev(s, totalSlides)
    case NextClicked => if ControlsDisabled(s) then s else Carousel.Next(s, totalSlides)
    case DotClicked(i) => if ControlsDisabled(s) then s else Carousel.GoTo(s, i)
    case AutoPlayElapsed => Carousel.Tick(s, totalSlides, autoPlay)
    case TransitionEnded => Carousel.Release(s)
  }

  /** Mounting the hero: a carousel over the three slides, autoplaying every 6000 ms. */
  method MountHero() returns (c: Carousel.CarouselController)
    ensures fresh(c) && c.Valid() && c.IndexInRange()
    ensures c.totalSlides == |Slides| && c.autoPlay && c.autoPlayInterval == HeroAutoPlayInterval
    ensures c.State() == Carousel.InitialState()
  {
    c := new Carousel.CarouselController(|Slides|, Some(true), Some(HeroAutoPlayInterval));
  }

  /** Dispatches one hero event to the carousel controller. */
  method HandleEvent(c: Carousel.CarouselController, e: HeroEvent)
    requires c.Valid()
    modifies c
    ensures c.Valid()
    ensures c.State() == HeroStep(old(c.State()), c.totalSlides, c.autoPlay, e)
  {
    match e
    case MouseEnter => c.Pause();
    case MouseLeave => c.Resume();
    case PrevClicked => if !c.isAnimating { c.PrevSlide(); }
    case NextClicked => if !c.isAnimating { c.NextSlide(); }
    case DotClicked(i) => if !c.isAnimating { c.GoToSlide(i); }
    case AutoPlayElapsed => var _ := c.AutoPlayTick();
    case TransitionEnded => c.ReleaseLock();
  }
}

=== FILE: in_view.dfy ===
/** The visibility trigger (`useInView`) and its delayed variant (`useInViewAnimation`).
    An intersection observer delivers entries; each entry is one call of the observer
    callback. The delay timer firing is an explicit event. */
module InView {
  import opened Util

  const DefaultThreshold: real := 0.2
  const DefaultRootMargin: string := "0px"
  const DefaultTriggerOnce := true
  const DefaultAnimationDelay := 0

  /** The options in effect. */
  datatype Options = Options(threshold: real, rootMargin: string, triggerOnce: bool)

  /** The options object a caller passes; a field left out is `None`. */
  datatype OptionsArg = OptionsArg(threshold: Option<real>, rootMargin: Option<string>, triggerOnce: Option<bool>)

  /** The hook's destructuring with defaults: a given field is kept, a missing one takes
      its default. */
  function ResolveOptions(arg: OptionsArg): (o: Options)
    ensures arg.threshold.Some? ==> o.threshold == arg.threshold.value
    ensures arg.threshold.None? ==> o.threshold == DefaultThreshold
    ensures arg.rootMargin.Some? ==> o.rootMargin == arg.rootMargin.value
    ensures arg.rootMargin.None? ==> o.rootMargin == DefaultRootMargin
    ensures arg.triggerOnce.Some? ==> o.triggerOnce == arg.triggerOnce.value
    ensures arg.triggerOnce.None? ==> o.triggerOnce == DefaultTriggerOnce
  {
    Options(
      if arg.threshold.Some? then arg.threshold.value else DefaultThreshold,
      if arg.rootMargin.Some? then arg.rootMargin.value else DefaultRootMargin,
      if arg.triggerOnce.Some? then arg.triggerOnce.value else DefaultTriggerOnce)
  }

  /** Every field given. */
  function Given(o: Options): OptionsArg
  {
    OptionsArg(Some(o.threshold), Some(o.rootMargin), Some(o.triggerOnce))
  }

  /** Fully given options are taken as they are, and an empty options object means
      threshold 0.2, root margin "0px" and trigger-once. */
  lemma ResolveOptionsDefaults(o: Options)
    ensures ResolveOptions(Given(o)) == o
    ensures ResolveOptions(OptionsArg(None, None, None)) == Options(0.2, "0px", true)
  {
  }

  /** `useInViewAnimation`'s `animationDelay`, 0 when left out. */
  function ResolveDelay(animationDelay: Option<int>): (d: int)
    ensures animationDelay.Some? ==> d == animationDelay.value
    ensures animationDelay.None? ==> d == 0
  {
    if animationDelay.Some? then animationDelay.value else DefaultAnimationDelay
  }

  /** `isInView`, and whether the observer is still connected. */
  datatype TriggerState = TriggerState(isInView: bool, observing: bool)

  /** After mounting: not in view; an observer is connected only if an element is bound. */
  function Mounted(elementBound: bool): TriggerState
  {
    TriggerState(false, elementBound)
  }

  /** The observer callback for one entry. A disconnected observer delivers nothing. */
  function OnEntry(s: TriggerState, triggerOnce: bool, isIntersecting: bool): (r: TriggerState)
    ensures !s.observing ==> r == s
    ensures s.observing ==> (r.isInView <==> isIntersecting || (triggerOnce && s.isInView))
    ensures triggerOnce && s.isInView ==> r.isInView
    ensures r.observing <==> s.observing && !(triggerOnce && isIntersecting)
  {
    if !s.observing then s
    else if isIntersecting then TriggerState(true, !triggerOnce)
    else if !triggerOnce then TriggerState(false, true)
    else s
  }

  /** The state after a sequence of entries, oldest first. */
  function Observe(s: TriggerState, triggerOnce: bool, entries: seq<bool>): TriggerState
  {
    if entries == [] then s
    else OnEntry(Observe(s, triggerOnce, entries[..|entries| - 1]), triggerOnce, entries[|entries| - 1])
  }

  predicate SomeIntersecting(entries: seq<bool>)
  {
    exists k :: 0 <= k < |entries| && entries[k]
  }

  /** With no element bound nothing is observed and the flag stays false. */
  lemma {:induction false} NoElementNeverInView(triggerOnce: bool, entries: seq<bool>)
    ensures Observe(Mounted(false), triggerOnce, entries) == Mounted(false)
  {
    if entries != [] {
      NoElementNeverInView(triggerOnce, entries[..|entries| - 1]);
    }
  }

  /** Under `triggerOnce` the flag never goes back to false, whatever entries arrive. */
  lemma {:induction false} TriggerOnceMonotone(s: TriggerState, entries: seq<bool>)
    requires s.isInView
    ensures Observe(s, true, entries).isInView
  {
    if entries != [] {
      TriggerOnceMonotone(s, entries[..|entries| - 1]);
    }
  }

  /** Under `triggerOnce`, from a bound element: the flag is true exactly when some entry
      intersected, and the observer is disconnected exactly then. */
  lemma {:induction false} TriggerOnceLatches(entries: seq<bool>)
    ensures Observe(Mounted(true), true, entries).isInView <==> SomeIntersecting(entries)
    ensures Observe(Mounted(true), true, entries).observing <==> !SomeIntersecting(entries)
  {
    if entries != [] {
      var p := entries[..|entries| - 1];
      TriggerOnceLatches(p);
      assert forall k :: 0 <= k < |p| ==> p[k] == entries[k];
      assert SomeIntersecting(entries) <==> SomeIntersecting(p) || entries[|entries| - 1];
    }
  }

  /** Without `triggerOnce` the observer stays connected and the flag is the latest
      entry's `isIntersecting` (false before any entry). */
  lemma {:induction false} TracksLatestEntry(entries: seq<bool>)
    ensures Observe(Mounted(true), false, entries)
         == TriggerState(entries != [] && entries[|entries| - 1], true)
  {
    if entries != [] {
      TracksLatestEntry(entries[..|entries| - 1]);
    }
  }

  /** The hook's state: `elementBound` is whether `ref.current` was set when the effect ran. */
  class VisibilityTrigger {
    const options: Options
    const elementBound: bool
    var isInView: bool
    var observing: bool

    ghost predicate Valid()
      reads this
    {
      && (observing ==> elementBound)
      && (!elementBound ==> !isInView)
      && (options.triggerOnce && isInView ==> !observing)
    }

    function State(): TriggerState
      reads this
    {
      TriggerState(isInView, observing)
    }

    constructor (arg: OptionsArg, elementBound: bool)
      ensures Valid()
      ensures options == ResolveOptions(arg) && this.elementBound == elementBound
      ensures State() == Mounted(elementBound)
    {
      options := ResolveOptions(arg);
      this.elementBound := elementBound;
      isInView := false;
      observing := elementBound;
    }

    method HandleEntry(isIntersecting: bool)
      requires Valid()
      modifies this
      ensures Valid()
      ensures State() == OnEntry(old(State()), options.triggerOnce, isIntersecting)
    {
      if !observing {
        return;
      }
      if isIntersecting {
        isInView := true;
        if options.triggerOnce {
          observing := false;
        }
      } else if !options.triggerOnce {
        isInView := false;
      }
    }

    /** The effect's cleanup on unmount disconnects the observer. */
    method Disconnect()
      requires Valid()
      modifies this
      ensures Valid()
      ensures State() == old(State()).(observing := false)
    {
      observing := false;
    }
  }

  /** `useInViewAnimation`'s extra state: the delayed flag, whether its timer is pending,
      and the `isInView` value its effect last ran with. */
  datatype DelayState = DelayState(seenInView: bool, delayedInView: bool, timerPending: bool)

  predicate DelayConsistent(d: DelayState)
  {
    d.timerPending ==> d.seenInView
  }

  /** The effect re-runs only when `isInView` changes: the pending timer (if any) is
      cleared, and a new one is started when the flag is now true. */
  function InViewChanged(d: DelayState, isInView: bool): (r: DelayState)
    ensures r.delayedInView == d.delayedInView
    ensures r.seenInView == isInView
    ensures DelayConsistent(d) ==> DelayConsistent(r)
    ensures isInView != d.seenInView ==> (r.timerPending <==> isInView)
    ensures isInView == d.seenInView ==> r == d
  {
    if isInView == d.seenInView then d
    else DelayState(isInView, d.delayedInView, isInView)
  }

  /** The delay timer fires: the delayed flag switches on, and can only switch on. */
  function DelayElapsed(d: DelayState): (r: DelayState)
    ensures r.delayedInView <==> d.delayedInView || d.timerPending
    ensures !r.timerPending && r.seenInView == d.seenInView
    ensures DelayConsistent(r)
  {
    if d.timerPending then d.(delayedInView := true, timerPending := false) else d
  }

  datatype DelayEvent = InViewIs(isInView: bool) | Elapsed

  function DelayStep(d: DelayState, e: DelayEvent): DelayState
  {
    match e
    case InViewIs(v) => InViewChanged(d, v)
    case Elapsed => DelayElapsed(d)
  }

  function RunDelay(d: DelayState, events: seq<DelayEvent>): DelayState
  {
    if events == [] then d
    else DelayStep(RunDelay(d, events[..|events| - 1]), events[|events| - 1])
  }

  /** `delayedInView` is never reset to false. */
  lemma {:induction false} DelayedNeverResets(d: DelayState, events: seq<DelayEvent>)
    requires d.delayedInView
    ensures RunDelay(d, events).delayedInView
  {
    if events != [] {
      DelayedNeverResets(d, events[..|events| - 1]);
    }
  }

  /** Whenever the flag switches on, it is because a timer fired that was pending while
      `isInView` was (and still was) true. */
  lemma {:induction false} DelayedOnlyAfterTimer(d: DelayState, events: seq<DelayEvent>)
    requires DelayConsistent(d) && !d.delayedInView
    requires RunDelay(d, events).delayedInView
    ensures exists k :: 0 <= k < |events| && events[k] == Elapsed
              && RunDelay(d, events[..k]).timerPending && RunDelay(d, events[..k]).seenInView
  {
    var n := |events| - 1;
    var p := events[..n];
    assert events != [];
    if RunDelay(d, p).delayedInView {
      DelayedOnlyAfterTimer(d, p);
      var k :| 0 <= k < |p| && p[k] == Elapsed
                && RunDelay(d, p[..k]).timerPending && RunDelay(d, p[..k]).seenInView;
      assert p[..k] == events[..k];
    } else {
      ConsistentAlong(d, p);
      assert events[..n] == p;
    }
  }

  lemma {:induction false} ConsistentAlong(d: DelayState, events: seq<DelayEvent>)
    requires DelayConsistent(d)
    ensures DelayConsistent(RunDelay(d, events))
  {
    if events != [] {
      ConsistentAlong(d, events[..|events| - 1]);
    }
  }

  /** A pending delay is cancelled when `isInView` drops before it fires: the firing
      that follows changes nothing. */
  lemma PendingDelayCancelled(d: DelayState)
    requires DelayConsistent(d) && d.timerPending
    ensures DelayElapsed(InViewChanged(d, false)) == InViewChanged(d, false)
    ensures DelayElapsed(InViewChanged(d, false)).delayedInView == d.delayedInView
  {
  }

  /** The delayed hook: it owns a visibility trigger and the delay timer. */
  class AnimatedVisibilityTrigger {
    const trigger: VisibilityTrigger
    const animationDelay: int
    var delayedInView: bool
    var timerPending: bool

    ghost predicate Valid()
      reads this, trigger
    {
      trigger.Valid() && (timerPending ==> trigger.isInView)
    }

    function Delay(): DelayState
      reads this, trigger
    {
      DelayState(trigger.isInView, delayedInView, timerPending)
    }

    /** The hook hands back `animationDelay` as configured, or its default 0. */
    constructor (arg: OptionsArg, elementBound: bool, animationDelay: Option<int>)
      ensures Valid() && fresh(trigger)
      ensures this.animationDelay == ResolveDelay(animationDelay)
      ensures trigger.options == ResolveOptions(arg) && trigger.State() == Mounted(elementBound)
      ensures !delayedInView && !timerPending
    {
      trigger := new VisibilityTrigger(arg, elementBound);
      this.animationDelay := ResolveDelay(animationDelay);
      delayedInView := false;
      timerPending := false;
    }

    /** An observer entry, then the delay effect if `isInView` changed. */
    method HandleEntry(isIntersecting: bool)
      requires Valid()
      modifies this, trigger
      ensures Valid()
      ensures trigger.State() == OnEntry(old(trigger.State()), trigger.options.triggerOnce, isIntersecting)
      ensures Delay() == InViewChanged(old(Delay()), trigger.isInView)
    {
      var before := trigger.isInView;
      trigger.HandleEntry(isIntersecting);
      if trigger.isInView != before {
        timerPending := trigger.isInView;
      }
    }

    /** The `animationDelay` timer fires. */
    method DelayTimerFires()
      requires Valid()
      modifies this
      ensures Valid()
      ensures Delay() == DelayElapsed(old(Delay()))
    {
      if timerPending {
        delayedInView := true;
        timerPending := false;
      }
    }

    /** Unmounting: the observer disconnects and the pending timer is cleared. */
    method Unmount()
      requires Valid()
      modifies this, trigger
      ensures Valid()
      ensures !trigger.observing && !timerPending
      ensures delayedInView == old(delayedInView) && trigger.isInView == old(trigger.isInView)
    {
      trigger.Disconnect();
      timerPending := false;
    }
  }
}

=== FILE: navbar.dfy ===
/** The navigation bar's interactive state: which desktop dropdown is open (a single
    optional item name), whether the mobile menu is open, and the scrolled flag that
    switches its styling. */
module Navbar {
  import opened Util
  import ScrollPosition

  /** The navbar asks for the scrolled flag past 50 pixels. */
  const NavbarScrolledThreshold := 50

  datatype NavItem = NavItem(name: string, href: string, hasDropdown: bool, dropdownItems: seq<string>)

  const NavItems: seq<NavItem> := [
    NavItem("Collections", "#collections", true,
            ["Spring/Summer 2025", "The Essential Edit", "Workwear", "Weekend Wear", "View All"]),
    NavItem("New Arrivals", "#new-arrivals", false, []),
    NavItem("Men", "#men", true, ["Shirts", "Trousers", "Outerwear", "Knitwear", "Accessories"]),
    NavItem("Women", "#women", true, ["Dresses", "Tops", "Bottoms", "Outerwear", "Accessories"]),
    NavItem("Accessories", "#accessories", false, []),
    NavItem("About", "#about", false, [])
  ]

  /** A dropdown renders open exactly when its item has one and is the active name. */
  function DropdownOpen(item: NavItem, activeDropdown: Option<string>): (r: bool)
    ensures r ==> activeDropdown == Some(item.name)
    ensures r ==> item.hasDropdown
    ensures item.hasDropdown && activeDropdown == Some(item.name) ==> r
  {
    item.hasDropdown && activeDropdown == Some(item.name)
  }

  function OpenFlags(items: seq<NavItem>, activeDropdown: Option<string>): seq<bool>
  {
    seq(|items|, i requires 0 <= i < |items| => DropdownOpen(items[i], activeDropdown))
  }

  predicate NamesDistinct(items: seq<NavItem>)
  {
    forall i, j :: 0 <= i < |items| && 0 <= j < |items| && i != j ==> items[i].name != items[j].name
  }

  /** Names some item of the bar that has a dropdown. */
  predicate IsDropdownName(name: string)
  {
    exists i :: 0 <= i < |NavItems| && NavItems[i].hasDropdown && NavItems[i].name == name
  }

  lemma NavItemNamesDistinct()
    ensures NamesDistinct(NavItems)
  {
    assert NavItems[0].name[0] == 'C' && NavItems[1].name[0] == 'N' && NavItems[2].name[0] == 'M';
    assert NavItems[3].name[0] == 'W' && NavItems[4].name[0] == 'A' && NavItems[5].name[0] == 'A';
    assert NavItems[4].name[1] == 'c' && NavItems[5].name[1] == 'b';
  }

  /** Over items with distinct names, at most one dropdown is open. */
  lemma AtMostOneDropdownOpen(items: seq<NavItem>, activeDropdown: Option<string>)
    requires NamesDistinct(items)
    ensures CountTrue(OpenFlags(items, activeDropdown)) <= 1
  {
    CountAtMostOne(OpenFlags(items, activeDropdown));
  }

  /** In the bar itself: exactly one dropdown is open when the active name is that of a
      dropdown item, and none otherwise. */
  lemma OpenDropdownCount(activeDropdown: Option<string>)
    ensures activeDropdown.Some? && IsDropdownName(activeDropdown.value) ==>
              CountTrue(OpenFlags(NavItems, activeDropdown)) == 1
    ensures activeDropdown.None? ==> CountTrue(OpenFlags(NavItems, activeDropdown)) == 0
  {
    var flags := OpenFlags(NavItems, activeDropdown);
    if activeDropdown.Some? && IsDropdownName(activeDropdown.value) {
      NavItemNamesDistinct();
      var k :| 0 <= k < |NavItems| && NavItems[k].hasDropdown && NavItems[k].name == activeDropdown.value;
      CountExactlyOne(flags, k);
    } else if activeDropdown.None? {
      CountNone(flags);
    }
  }

  /** The mobile menu button's accessible name. */
  function MenuButtonLabel(isMobileMenuOpen: bool): (r: string)
    ensures r == "Close menu" <==> isMobileMenuOpen
    ensures r == "Open menu" <==> !isMobileMenuOpen
  {
    if isMobileMenuOpen then "Close menu" else "Open menu"
  }

  class NavbarState {
    var activeDropdown: Option<string>
    var isMobileMenuOpen: bool
    const scrolled: ScrollPosition.ScrolledFlag

    /** The active name, when set, is that of an item with a dropdown. */
    ghost predicate Valid()
      reads this
    {
      activeDropdown.Some? ==> IsDropdownName(activeDropdown.value)
    }

    constructor ()
      ensures Valid() && activeDropdown == None && !isMobileMenuOpen
      ensures fresh(scrolled) && !scrolled.isScrolled
      ensures scrolled.threshold == NavbarScrolledThreshold == ScrollPosition.DefaultScrolledThreshold
    {
      activeDropdown := None;
      isMobileMenuOpen := false;
      scrolled := new ScrollPosition.ScrolledFlag(Some(NavbarScrolledThreshold));
    }

    /** A window scroll event (and the reading taken at mount) updates the scrolled flag. */
    method HandleWindowScroll(scrollY: int)
      modifies scrolled
      ensures scrolled.isScrolled == ScrollPosition.IsScrolled(scrollY, scrolled.threshold)
      ensures activeDropdown == old(activeDropdown) && isMobileMenuOpen == old(isMobileMenuOpen)
    {
      scrolled.HandleScroll(scrollY);
    }

    /** The mouse enters a bar item; only items with a dropdown open theirs. */
    method HandleMouseEnter(index: nat)
      requires Valid() && index < |NavItems|
      modifies this
      ensures Valid()
      ensures activeDropdown == (if NavItems[index].hasDropdown then Some(NavItems[index].name)
                                 else old(activeDropdown))
      ensures isMobileMenuOpen == old(isMobileMenuOpen)
    {
      var item := NavItems[index];
      if item.hasDropdown {
        activeDropdown := Some(item.name);
      }
    }

    /** The mouse leaves any bar item. */
    method HandleMouseLeave()
      requires Valid()
      modifies this
      ensures Valid()
      ensures activeDropdown == None && isMobileMenuOpen == old(isMobileMenuOpen)
    {
      activeDropdown := None;
    }

    method ToggleMobileMenu()
      requires Valid()
      modifies this
      ensures Valid()
      ensures isMobileMenuOpen == !old(isMobileMenuOpen) && activeDropdown == old(activeDropdown)
    {
      isMobileMenuOpen := !isMobileMenuOpen;
    }

    /** Called by the backdrop and by every link of the mobile menu. */
    method CloseMobileMenu()
      requires Valid()
      modifies this
      ensures Valid()
      ensures !isMobileMenuOpen && activeDropdown == old(activeDropdown)
    {
      isMobileMenuOpen := false;
    }
  }
}

=== FILE: new_arrivals.dfy ===
/** The horizontal product rail of the "New Arrivals" section: its scroll progress, the
    two boundary flags that enable the arrow buttons, the progress-bar width and the
    fixed scroll step. The scroll container's metrics are read at each event. */
module NewArrivals {
  import opened Util

  /** Margin, in pixels, inside which the rail counts as being at an edge. */
  const EdgeMargin := 10
  /** Distance of one arrow-button scroll, in pixels. */
  const ScrollAmount := 320

  /** The container's `scrollLeft`, `scrollWidth` and `clientWidth`. */
  datatype Metrics = Metrics(scrollLeft: int, scrollWidth: int, clientWidth: int)

  datatype RailState = RailState(scrollProgress: real, canScrollLeft: bool, canScrollRight: bool)

  datatype Side = Left | Right

  function MaxScroll(m: Metrics): int { m.scrollWidth - m.clientWidth }

  /** The offsets a browser can report: `scrollLeft` lies between 0 and the maximum. */
  predicate WellFormed(m: Metrics)
  {
    0 <= m.scrollLeft && (MaxScroll(m) <= 0 ==> m.scrollLeft == 0)
    && (MaxScroll(m) > 0 ==> m.scrollLeft <= MaxScroll(m))
  }

  /** The state before the first measurement. */
  function InitialRail(): RailState { RailState(0.0, false, true) }

  /** What `updateScrollState` derives from one measurement. */
  function Derive(m: Metrics): (r: RailState)
    ensures MaxScroll(m) <= 0 ==> r.scrollProgress == 0.0
    ensures MaxScroll(m) > 0 ==> r.scrollProgress * (MaxScroll(m) as real) == m.scrollLeft as real
    ensures WellFormed(m) ==> 0.0 <= r.scrollProgress <= 1.0
    ensures WellFormed(m) && MaxScroll(m) > 0 ==>
              (r.scrollProgress == 0.0 <==> m.scrollLeft == 0)
              && (r.scrollProgress == 1.0 <==> m.scrollLeft == MaxScroll(m))
    ensures r.canScrollLeft <==> m.scrollLeft > EdgeMargin
    ensures r.canScrollRight <==> m.scrollLeft + EdgeMargin < MaxScroll(m)
    ensures MaxScroll(m) > 2 * EdgeMargin ==> r.canScrollLeft || r.canScrollRight
  {
    var maxScroll := m.scrollWidth - m.clientWidth;
    var progress := if maxScroll > 0 then (m.scrollLeft as real) / (maxScroll as real) else 0.0;
    RatioFacts(m.scrollLeft as real, maxScroll as real);
    RailState(progress, m.scrollLeft > EdgeMargin, m.scrollLeft < maxScroll - EdgeMargin)
  }

  lemma SignOfProduct(a: real, d: real)
    requires d > 0.0
    ensures a > 0.0 ==> a * d > 0.0
    ensures a < 0.0 ==> a * d < 0.0
  {
  }

  lemma RatioFacts(x: real, d: real)
    ensures d > 0.0 && x >= 0.0 ==> x / d >= 0.0
    ensures d > 0.0 && x <= d ==> x / d <= 1.0
    ensures d > 0.0 ==> (x / d == 1.0 <==> x == d)
    ensures d > 0.0 ==> (x / d == 0.0 <==> x == 0.0)
  {
    if d > 0.0 {
      var q := x / d;
      assert q * d == x;
      SignOfProduct(q, d);
      assert (q - 1.0) * d == x - d;
      SignOfProduct(q - 1.0, d);
    }
  }

  lemma DivMonotone(x: real, y: real, d: real)
    requires d > 0.0 && x <= y
    ensures x / d <= y / d
  {
    var a, b := x / d, y / d;
    assert a * d == x && b * d == y;
    assert (a - b) * d == x - y;
    SignOfProduct(a - b, d);
  }

  /** Moving further right never lowers the progress. */
  lemma ProgressMonotone(m1: Metrics, m2: Metrics)
    requires m1.scrollWidth == m2.scrollWidth && m1.clientWidth == m2.clientWidth
    requires m1.scrollLeft <= m2.scrollLeft
    ensures Derive(m1).scrollProgress <= Derive(m2).scrollProgress
  {
    if MaxScroll(m1) > 0 {
      DivMonotone(m1.scrollLeft as real, m2.scrollLeft as real, MaxScroll(m1) as real);
    }
  }

  /** A 1000-pixel rail in a 400-pixel window: at the left end only the right arrow is
      enabled; halfway (300) both are, with the bar at 65%; at the right end (600) the
      right arrow is disabled. */
  lemma RailExample()
    ensures Derive(Metrics(0, 1000, 400)) == RailState(0.0, false, true)
    ensures Derive(Metrics(300, 1000, 400)) == RailState(0.5, true, true)
    ensures BarWidth(Derive(Metrics(300, 1000, 400)).scrollProgress) == 65.0
    ensures Derive(Metrics(600, 1000, 400)) == RailState(1.0, true, false)
  {
  }

  /** The progress-bar width, in percent: `max(15, min(100, progress * 100 + 15))`. */
  function BarWidth(progress: real): (r: real)
    ensures 15.0 <= r <= 100.0
    ensures 0.0 <= progress <= 0.85 ==> r == progress * 100.0 + 15.0
    ensures progress >= 0.85 ==> r == 100.0
    ensures progress <= 0.0 ==> r == 15.0
  {
    var inner := if 100.0 < progress * 100.0 + 15.0 then 100.0 else progress * 100.0 + 15.0;
    if 15.0 < inner then inner else 15.0
  }

  lemma BarWidthMonotone(p1: real, p2: real)
    requires p1 <= p2
    ensures BarWidth(p1) <= BarWidth(p2)
  {
  }

  /** The `left` offset passed to `scrollBy`, or `None` when no container is mounted. */
  function ScrollRequest(containerMounted: bool, side: Side): (r: Option<int>)
    ensures r.Some? <==> containerMounted
    ensures r.Some? ==> Abs(r.value) == ScrollAmount
    ensures r.Some? ==> (r.value < 0 <==> side == Left)
  {
    if !containerMounted then None
    else Some(if side == Left then -ScrollAmount else ScrollAmount)
  }

  /** An arrow button is disabled exactly when the rail cannot move that way. */
  function ArrowDisabled(s: RailState, side: Side): (r: bool)
    ensures side == Left ==> (r <==> !s.canScrollLeft)
    ensures side == Right ==> (r <==> !s.canScrollRight)
  {
    match side
    case Left => !s.canScrollLeft
    case Right => !s.canScrollRight
  }

  /** Before any measurement the left arrow is disabled, the right one enabled, and the
      bar shows its 15% minimum. */
  lemma InitialView()
    ensures ArrowDisabled(InitialRail(), Left) && !ArrowDisabled(InitialRail(), Right)
    ensures BarWidth(InitialRail().scrollProgress) == 15.0
  {
  }

  /** The section's rail state. `container` is `None` when the scroll container is not
      mounted (`scrollRef.current` is null). */
  class RailController {
    var scrollProgress: real
    var canScrollLeft: bool
    var canScrollRight: bool

    function State(): RailState
      reads this
    {
      RailState(scrollProgress, canScrollLeft, canScrollRight)
    }

    constructor ()
      ensures State() == InitialRail()
    {
      scrollProgress := 0.0;
      canScrollLeft := false;
      canScrollRight := true;
    }

    /** `updateScrollState`: on every scroll event, and once eagerly when mounted. */
    method UpdateScrollState(container: Option<Metrics>)
      modifies this
      ensures container.None? ==> State() == old(State())
      ensures container.Some? ==> State() == Derive(container.value)
    {
      if container.None? {
        return;
      }
      var m := container.value;
      var maxScroll := m.scrollWidth - m.clientWidth;
      var progress := if maxScroll > 0 then (m.scrollLeft as real) / (maxScroll as real) else 0.0;
      scrollProgress := progress;
      canScrollLeft := m.scrollLeft > EdgeMargin;
      canScrollRight := m.scrollLeft < maxScroll - EdgeMargin;
    }
  }
}

=== FILE: newsletter.dfy ===
/** The newsletter signup form: an email field and a status that moves
    idle -> loading -> success -> idle. The simulated request completing (after 1500 ms)
    and the success message timing out (after 3000 ms) are explicit events. */
module Newsletter {

  /** `Error` is part of the declared status type but no code path assigns it. */
  datatype Status = Idle | Loading | Success | Error

  /** Which timer-driven continuation is outstanding, if any. */
  datatype Pending = NoTimer | RequestInFlight | ResetScheduled

  datatype Form = Form(email: string, status: Status, pending: Pending)

  function InitialForm(): Form { Form("", Idle, NoTimer) }

  /** An invariant of the form: it holds initially and every event keeps it, so every
      reachable form satisfies it (it also admits some unreachable forms, such as a
      request in flight with an empty email). */
  predicate Consistent(f: Form)
  {
    && f.status != Error
    && (f.status == Loading <==> f.pending == RequestInFlight)
    && (f.status == Success <==> f.pending == ResetScheduled)
    && (f.status == Success ==> f.email == "")
  }

  /** The input and button are shown unless the thank-you message replaces them. In a
      consistent form they are hidden exactly while the reset timer is pending, and
      the email is empty then. */
  function FormShown(f: Form): (r: bool)
    ensures Consistent(f) ==> (r <==> f.pending != ResetScheduled)
    ensures Consistent(f) && !r ==> f.email == ""
  {
    f.status != Success
  }

  /** The email input's `disabled`: in a consistent form, exactly while the request is
      in flight; a disabled input is still shown. */
  function InputDisabled(f: Form): (r: bool)
    ensures Consistent(f) ==> (r <==> f.pending == RequestInFlight)
    ensures r ==> FormShown(f)
  {
    f.status == Loading
  }

  /** The submit button's `disabled`: whenever the input is disabled, whenever the email
      is empty, and so in a consistent form whenever the form is hidden. */
  function SubmitDisabled(f: Form): (r: bool)
    ensures InputDisabled(f) ==> r
    ensures f.email == "" ==> r
    ensures Consistent(f) && !FormShown(f) ==> r
    ensures !r ==> f.email != "" && !InputDisabled(f)
  {
    f.status == Loading || f.email == ""
  }

  /** Typing into the input; only possible while it is shown and enabled. */
  function EditEmail(f: Form, text: string): (r: Form)
    ensures FormShown(f) && !InputDisabled(f) ==> r == f.(email := text)
    ensures !FormShown(f) || InputDisabled(f) ==> r == f
  {
    if FormShown(f) && !InputDisabled(f) then f.(email := text) else f
  }

  /** `handleSubmit` up to its `await`: ignored with an empty email or while loading. */
  function Submit(f: Form): (r: Form)
    ensures r == f <==> SubmitDisabled(f)
    ensures r != f ==> r.status == Loading && r.pending == RequestInFlight
    ensures r.email == f.email
    ensures Consistent(f) ==> Consistent(r)
  {
    if f.email == "" || f.status == Loading then f
    else f.(status := Loading, pending := RequestInFlight)
  }

  /** The simulated request resolves: success, and the email is cleared. */
  function RequestResolved(f: Form): (r: Form)
    ensures f.pending == RequestInFlight ==> r == Form("", Success, ResetScheduled)
    ensures f.pending != RequestInFlight ==> r == f
    ensures Consistent(f) ==> Consistent(r)
  {
    if f.pending == RequestInFlight then Form("", Success, ResetScheduled) else f
  }

  /** The success message times out and the form returns to idle. */
  function ResetElapsed(f: Form): (r: Form)
    ensures f.pending == ResetScheduled ==> r == f.(status := Idle, pending := NoTimer)
    ensures f.pending != ResetScheduled ==> r == f
    ensures Consistent(f) ==> Consistent(r)
  {
    if f.pending == ResetScheduled then f.(status := Idle, pending := NoTimer) else f
  }

  datatype Event = Typed(text: string) | Submitted | Resolved | ResetFired

  function Step(f: Form, e: Event): Form
  {
    match e
    case Typed(text) => EditEmail(f, text)
    case Submitted => Submit(f)
    case Resolved => RequestResolved(f)
    case ResetFired => ResetElapsed(f)
  }

  function Run(f: Form, events: seq<Event>): Form
  {
    if events == [] then f else Step(Run(f, events[..|events| - 1]), events[|events| - 1])
  }

  /** Every sequence of events keeps the form consistent: `Error` never occurs, and the
      email is empty whenever the success message shows. */
  lemma {:induction false} AlwaysConsistent(events: seq<Event>)
    ensures Consistent(Run(InitialForm(), events))
    ensures Run(InitialForm(), events).status != Error
  {
    if events != [] {
      AlwaysConsistent(events[..|events| - 1]);
    }
  }

  /** A non-empty email submitted from idle goes loading, then success with the email
      cleared, then idle again; the email is untouched until the request resolves. */
  lemma SubmitLifecycle(f: Form)
    requires Consistent(f) && f.status == Idle && f.email != ""
    ensures Submit(f).status == Loading && Submit(f).email == f.email
    ensures RequestResolved(Submit(f)).status == Success
    ensures RequestResolved(Submit(f)).email == ""
    ensures ResetElapsed(RequestResolved(Submit(f))) == Form("", Idle, NoTimer)
  {
  }

  /** In success the email is empty, so a further submit is ignored. */
  lemma SubmitDuringSuccessIgnored(f: Form)
    requires Consistent(f) && f.status == Success
    ensures Submit(f) == f && !FormShown(f)
  {
  }

  /** The form component's state. */
  class NewsletterForm {
    var email: string
    var status: Status
    var pending: Pending

    ghost predicate Valid()
      reads this
    {
      Consistent(State())
    }

    function State(): Form
      reads this
    {
      Form(email, status, pending)
    }

    constructor ()
      ensures Valid() && State() == InitialForm()
    {
      email := "";
      status := Idle;
      pending := NoTimer;
    }

    method Type(text: string)
      requires Valid()
      modifies this
      ensures Valid() && State() == EditEmail(old(State()), text)
    {
      if status != Success && status != Loading {
        email := text;
      }
    }

    /** Returns whether the submission started. */
    method HandleSubmit() returns (started: bool)
      requires Valid()
      modifies this
      ensures Valid() && State() == Submit(old(State()))
      ensures started <==> !SubmitDisabled(old(State()))
    {
      if email == "" || status == Loading {
        return false;
      }
      status := Loading;
      pending := RequestInFlight;
      started := true;
    }

    method RequestCompletes()
      requires Valid()
      modifies this
      ensures Valid() && State() == RequestResolved(old(State()))
    {
      if pending == RequestInFlight {
        status := Success;
        email := "";
        pending := ResetScheduled;
      }
    }

    method ResetTimerFires()
      requires Valid()
      modifies this
      ensures Valid() && State() == ResetElapsed(old(State()))
    {
      if pending == ResetScheduled {
        status := Idle;
        pending := NoTimer;
      }
    }
  }
}

=== FILE: scroll_position.dfy ===
/** Vertical scroll tracking (`useScrollPosition`) and the navbar's scrolled flag
    (`useScrolled`). Window scroll readings are the arguments of the scroll events. */
module ScrollPosition {
  import opened Util

  /** The navbar's default threshold for the scrolled flag. */
  const DefaultScrolledThreshold := 50

  datatype Direction = Up | Down

  /** `direction` is `None` for JavaScript's `null`. */
  datatype Position = Position(x: int, y: int, direction: Option<Direction>)

  function InitialPosition(): Position { Position(0, 0, None) }

  /** The direction reported for a move from `lastScrollY` to `currentScrollY`. */
  function DirectionOf(lastScrollY: int, currentScrollY: int): (r: Option<Direction>)
    ensures r == None <==> currentScrollY == lastScrollY
    ensures r == Some(Down) <==> currentScrollY > lastScrollY
    ensures r == Some(Up) <==> currentScrollY < lastScrollY
  {
    var direction := if currentScrollY > lastScrollY then Down else Up;
    if currentScrollY == lastScrollY then None else Some(direction)
  }

  /** The reported position after a sequence of scroll readings `(scrollX, scrollY)`,
      oldest first, starting from the initial position. */
  function Track(readings: seq<(int, int)>): Position
  {
    if readings == [] then InitialPosition()
    else
      var last := readings[|readings| - 1];
      var previous := Track(readings[..|readings| - 1]);
      Position(last.0, last.1, DirectionOf(previous.y, last.1))
  }

  /** The reported direction always compares the latest reading with the one before it
      (or with 0 for the first reading); two readings at the same height report none. */
  lemma {:induction false} TrackComparesLastTwo(readings: seq<(int, int)>)
    requires readings != []
    ensures var n := |readings|;
      var before := if n >= 2 then readings[n - 2].1 else 0;
      Track(readings) == Position(readings[n - 1].0, readings[n - 1].1, DirectionOf(before, readings[n - 1].1))
  {
    var n := |readings|;
    if n >= 2 {
      var p := readings[..n - 1];
      TrackComparesLastTwo(p);
      assert p[|p| - 1] == readings[n - 2];
    }
  }

  /** The hook's state: the reported position and the separately kept `lastScrollY`. */
  class ScrollTracker {
    var position: Position
    var lastScrollY: int

    /** `lastScrollY` always equals the reported `y`. */
    ghost predicate Valid()
      reads this
    {
      lastScrollY == position.y
    }

    constructor ()
      ensures Valid()
      ensures position == InitialPosition() && lastScrollY == 0
    {
      position := InitialPosition();
      lastScrollY := 0;
    }

    /** `handleScroll`, given the window's `scrollX` and `scrollY`. */
    method HandleScroll(scrollX: int, scrollY: int)
      requires Valid()
      modifies this
      ensures Valid()
      ensures position == Position(scrollX, scrollY, DirectionOf(old(lastScrollY), scrollY))
      ensures lastScrollY == scrollY
    {
      var currentScrollY := scrollY;
      var direction := if currentScrollY > lastScrollY then Down else Up;
      position := Position(scrollX, currentScrollY,
                           if currentScrollY == lastScrollY then None else Some(direction));
      lastScrollY := currentScrollY;
    }
  }

  /** The scrolled flag: strictly past the threshold. */
  function IsScrolled(scrollY: int, threshold: int): (r: bool)
    ensures scrollY <= threshold ==> !r
    ensures scrollY >= threshold + 1 ==> r
  {
    scrollY > threshold
  }

  /** The flag depends on the current offset alone and is monotone in it: crossing the
      threshold flips it the same way in both directions. */
  lemma IsScrolledMonotone(y1: int, y2: int, threshold: int)
    requires y1 <= y2
    ensures IsScrolled(y1, threshold) ==> IsScrolled(y2, threshold)
    ensures !IsScrolled(y2, threshold) ==> !IsScrolled(y1, threshold)
  {
  }

  class ScrolledFlag {
    const threshold: int
    var isScrolled: bool

    /** Before the mount-time reading the flag is false. A threshold left out (`None`)
        is 50. */
    constructor (threshold: Option<int>)
      ensures this.threshold == (if threshold.Some? then threshold.value else DefaultScrolledThreshold)
      ensures threshold.None? ==> this.threshold == 50
      ensures !isScrolled
    {
      this.threshold := if threshold.Some? then threshold.value else DefaultScrolledThreshold;
      isScrolled := false;
    }

    /** A scroll event, and also the call made once when the effect mounts. */
    method HandleScroll(scrollY: int)
      modifies this
      ensures isScrolled == IsScrolled(scrollY, threshold)
    {
      isScrolled := scrollY > threshold;
    }
  }
}

=== FILE: util.dfy ===
/** Helpers shared by the storefront models: an optional value (JavaScript's `null`),
    JavaScript's remainder operator, and counting the `true` entries of a sequence. */
module Util {

  datatype Option<T> = None | Some(value: T)

  function Abs(x: int): nat { if x < 0 then -x else x }

  function Max(a: int, b: int): int { if a < b then b else a }

  /** JavaScript's `a % b` on integers: the remainder of division truncated toward
      zero, which takes the sign of the dividend (Dafny's `%` is Euclidean). */
  function JsRemainder(a: int, b: int): (r: int)
    requires b != 0
    ensures Abs(r) < Abs(b)
    ensures a >= 0 ==> r >= 0
    ensures a <= 0 ==> r <= 0
    ensures a >= 0 && b > 0 ==> r == a % b
  {
    var m := Abs(a) % Abs(b);
    assert 0 <= m < Abs(b);
    if a >= 0 then m else -m
  }

  /** The remainder completes a decomposition `a == q * b + r`. With the sign and bound
      stated by `JsRemainder`, this fixes its value for every sign of `a` and `b`. */
  lemma JsRemainderDecomposes(a: int, b: int) returns (q: int)
    requires b != 0
    ensures a == q * b + JsRemainder(a, b)
  {
    var n: int := Abs(b);
    var k := Abs(a) / n;
    var m := Abs(a) % n;
    assert Abs(a) == k * n + m;
    NegateFactor(k, n);
    if a >= 0 && b > 0 {
      q := k;
    } else if a >= 0 {
      q := -k;
      assert q * b == (-k) * (-n) == k * n;
    } else if b > 0 {
      q := -k;
      assert q * b == -(k * n);
    } else {
      q := k;
      assert q * b == k * (-n) == -(k * n);
    }
  }

  lemma NegateFactor(x: int, y: int)
    ensures (-x) * y == -(x * y) && x * (-y) == -(x * y) && (-x) * (-y) == x * y
  {
  }

  /** Any remainder with the dividend's sign and a magnitude below the divisor's that
      completes a decomposition `a == q * b + r` is JavaScript's `a % b`. */
  lemma JsRemainderUnique(a: int, b: int, q: int, r: int)
    requires b != 0 && a == q * b + r && Abs(r) < Abs(b)
    requires a >= 0 ==> r >= 0
    requires a <= 0 ==> r <= 0
    ensures r == JsRemainder(a, b)
  {
    var q' := JsRemainderDecomposes(a, b);
    var r' := JsRemainder(a, b);
    assert (q - q') * b == q * b - q' * b;
    assert (q - q') * b == r' - r;
    var k := if b > 0 then q - q' else q' - q;
    if b > 0 {
      assert k * Abs(b) == (q - q') * b;
    } else {
      assert k * Abs(b) == (q' - q) * -b == (q - q') * b;
    }
    var n: int := Abs(b);
    assert -n < r' - r < n;
    MulMagnitude(k, Abs(b));
    assert k == 0;
  }

  /** JavaScript's `-4 % 3` is `-1`, where the Euclidean remainder is `2`. */
  lemma JsRemainderNegativeDividend()
    ensures JsRemainder(-4, 3) == -1 && -4 % 3 == 2
  {
  }

  lemma MulMagnitude(k: int, m: int)
    requires m >= 1
    ensures k == 0 || k * m >= m || k * m <= -m
    decreases Abs(k)
  {
    if k >= 1 {
      assert k * m == (k - 1) * m + m;
      MulMagnitude(k - 1, m);
    } else if k <= -1 {
      assert k * m == (k + 1) * m - m;
      MulMagnitude(k + 1, m);
    }
  }

  /** Euclidean remainder is determined by any quotient/remainder decomposition. */
  lemma ModUnique(x: int, m: int, q: int, r: int)
    requires m >= 1 && 0 <= r < m && x == q * m + r
    ensures x % m == r
  {
    var q', r' := x / m, x % m;
    assert x == q' * m + r';
    assert (q - q') * m == r' - r;
    MulMagnitude(q - q', m);
  }

  /** Number of `true` entries. */
  function CountTrue(s: seq<bool>): nat
  {
    if s == [] then 0 else CountTrue(s[..|s| - 1]) + (if s[|s| - 1] then 1 else 0)
  }

  lemma {:induction false} CountNone(s: seq<bool>)
    requires forall i :: 0 <= i < |s| ==> !s[i]
    ensures CountTrue(s) == 0
  {
    if s != [] {
      var p := s[..|s| - 1];
      assert forall i :: 0 <= i < |p| ==> p[i] == s[i];
      CountNone(p);
    }
  }

  /** A sequence whose only `true` entry is at `k` counts exactly one. */
  lemma {:induction false} CountExactlyOne(s: seq<bool>, k: int)
    requires 0 <= k < |s| && s[k]
    requires forall i :: 0 <= i < |s| && i != k ==> !s[i]
    ensures CountTrue(s) == 1
  {
    var p := s[..|s| - 1];
    assert forall i :: 0 <= i < |p| ==> p[i] == s[i];
    if k == |s| - 1 {
      CountNone(p);
    } else {
      CountExactlyOne(p, k);
    }
  }

  /** A sequence with no two distinct `true` entries counts at most one. */
  lemma {:induction false} CountAtMostOne(s: seq<bool>)
    requires forall i, j :: 0 <= i < |s| && 0 <= j < |s| && s[i] && s[j] ==> i == j
    ensures CountTrue(s) <= 1
  {
    if exists k :: 0 <= k < |s| && s[k] {
      var k :| 0 <= k < |s| && s[k];
      CountExactlyOne(s, k);
    } else {
      CountNone(s);
    }
  }
}
